=== FILE: README.md ===
# Preset colours and block titles of the easy-email extensions

This project models the two pieces of real logic in the easy-email editor's
Next.js integration layer, and proves their properties in Dafny:

- **The recently used colour list** of `PresetColorsProvider`. The list lives in
  local storage and starts from eight default colours. `addCurrentColor` adds a
  colour the browser accepts: it appends it, removes repeats (keeping first
  occurrences), drops empty strings and keeps only the last 20 entries. A colour
  that is already stored is skipped and is not moved to the end.
- **Block title selection** (`getBlockTitle`). An explicit non-empty title wins.
  Otherwise text and button blocks show the plain text of their HTML content when
  a scratch element is available. Every other case shows the registered block
  name, or `""`.
- **The server-rendering-safe lazy accessor** that both use: a nullable holder for
  a scratch `div`. It is created on the first call that finds a browser
  document, and returned unchanged afterwards.

Files:

- `wrappers.dfy`: `Option`, for `null`/`undefined`.
- `lazy_element.dfy`: module `LazyElement`, the holder as a small state machine.
- `color_list.dfy`: module `ColorList`, the list steps `[...new Set(xs)]`, `.filter(Boolean)` and `.slice(-n)`.
- `preset_colors.dfy`: module `PresetColors`, the update rule, the provider state and runs of updates.
- `block_title.dfy`: module `BlockTitle`, the title decision.

Browser and library behaviour are parameters of the model:

- Whether a document exists is a `bool` supplied per call.
- The CSS colour parser is a function `string -> Option<string>`. `None` means
  the value is rejected. `Some(v)` means `style.color` reads back `v`.
- `innerText` after setting `innerHTML` is a function `string -> string`.
- The block registry (`BlockManager`) is a `map<BlockType, string>` of display names.

## Model

| member | source | states |
|---|---|---|
| LazyElement.Get | packages/easy-email-extensions/src/AttributePanel/components/provider/PresetColorsProvider/index.tsx:40-46 | A call returns the stored element if there is one. Otherwise it creates one only when a document exists, and returns null exactly when neither holds. At most one creation per call, and the holder invariant is kept. |
| LazyElement.RunCreatesAtMostOnce | packages/easy-email-extensions/src/utils/getBlockTitle.ts:4-10 | Over any run of calls, at most one element is created. Every non-null answer is the one element finally held. From an empty holder, the answer is null exactly until the first call that sees a document. |
| LazyElement.CreatedAtMostOnceFromEmpty | packages/easy-email-extensions/src/AttributePanel/components/provider/PresetColorsProvider/index.tsx:40-46 | From the empty holder, any two non-null answers are the same element, and at most one is created. |
| LazyElement.ServerRunStaysNull | packages/easy-email-extensions/src/utils/getBlockTitle.ts:4-10 | With no document at any call, every answer is null and nothing is created. No call fails. |
| ColorList.Dedupe | packages/easy-email-extensions/src/AttributePanel/components/provider/PresetColorsProvider/index.tsx:57 | The spread Set has no repeats, holds exactly the values of its input, and is no longer than it. |
| ColorList.SpreadSet | packages/easy-email-extensions/src/AttributePanel/components/provider/PresetColorsProvider/index.tsx:57 | Inserting into a Set one value at a time and spreading it gives exactly Dedupe. |
| ColorList.DedupeKeepsFirstOccurrenceOrder | packages/easy-email-extensions/src/AttributePanel/components/provider/PresetColorsProvider/index.tsx:57 | The spread Set lists the distinct values in the order they first occur in the input. |
| ColorList.DropEmpty | packages/easy-email-extensions/src/AttributePanel/components/provider/PresetColorsProvider/index.tsx:58 | The filter keeps exactly the non-empty strings and never lengthens the list. |
| ColorList.DropEmptyConcat | packages/easy-email-extensions/src/AttributePanel/components/provider/PresetColorsProvider/index.tsx:58 | Filtering a concatenation is filtering each part, so repeats and order are kept on every input. |
| ColorList.DropEmptyCounts | packages/easy-email-extensions/src/AttributePanel/components/provider/PresetColorsProvider/index.tsx:58 | The filtered list holds every non-empty string exactly as often as the input, and no "". |
| ColorList.DropEmptyKeepsOrder | packages/easy-email-extensions/src/AttributePanel/components/provider/PresetColorsProvider/index.tsx:58 | Filtering keeps the first-occurrence order of what remains. |
| ColorList.DropEmptyKeepsNoDuplicates | packages/easy-email-extensions/src/AttributePanel/components/provider/PresetColorsProvider/index.tsx:57-58 | Filtering a list without repeats gives a list without repeats. |
| ColorList.TakeLast | packages/easy-email-extensions/src/AttributePanel/components/provider/PresetColorsProvider/index.tsx:59 | The slice is the suffix of length min(length, 20), so truncation drops from the front. |
| ColorList.DedupeIdentity | packages/easy-email-extensions/src/AttributePanel/components/provider/PresetColorsProvider/index.tsx:57 | A list without repeats passes through the Set unchanged. |
| ColorList.DropEmptyIdentity | packages/easy-email-extensions/src/AttributePanel/components/provider/PresetColorsProvider/index.tsx:58 | A list without empty strings passes through the filter unchanged. |
| PresetColors.ProbeColor | packages/easy-email-extensions/src/AttributePanel/components/provider/PresetColorsProvider/index.tsx:53-55 | Because the colour is cleared first, the read-back is non-empty exactly when the browser accepts the candidate, whatever the element showed before. |
| PresetColors.AddColor | packages/easy-email-extensions/src/AttributePanel/components/provider/PresetColorsProvider/index.tsx:48-65 | An update happens if and only if the div exists, the colour is accepted and it is not already stored. The new list has at most 20 entries, no repeats, no empty strings, and ends with the new colour. It is the last min(n, 20) entries of the deduplicated, filtered old list plus the colour, and the old colours it keeps stay in first-occurrence order. |
| PresetColors.UpdatedList | packages/easy-email-extensions/src/AttributePanel/components/provider/PresetColorsProvider/index.tsx:57-59 | For a new, non-empty colour, the stored list holds the invariant and ends with that colour. The old colours it keeps stay in first-occurrence order. |
| PresetColors.CleanedAppend | packages/easy-email-extensions/src/AttributePanel/components/provider/PresetColorsProvider/index.tsx:56-58 | For a new, non-empty colour, the cleaned list before truncation is the cleaned old list followed by that colour. It has no repeats and keeps the first-occurrence order of the old list. |
| PresetColors.SuffixOfCleaned | packages/easy-email-extensions/src/AttributePanel/components/provider/PresetColorsProvider/index.tsx:57-59 | Every non-empty suffix of the cleaned list before truncation has no repeats and no empty strings, ends in the new colour, and keeps the old colours in order. |
| PresetColors.DefaultIsValid | packages/easy-email-extensions/src/AttributePanel/components/provider/PresetColorsProvider/index.tsx:8-17 | The eight default colours are distinct and non-empty, so they satisfy the list invariant. |
| PresetColors.AddColorOnValidList | packages/easy-email-extensions/src/AttributePanel/components/provider/PresetColorsProvider/index.tsx:57-59 | On a list that already holds the invariant, an update appends the colour. It drops only the oldest entry, and only when the list already held 20. |
| PresetColors.AddColorKeepsAllWhenRoom | packages/easy-email-extensions/src/AttributePanel/components/provider/PresetColorsProvider/index.tsx:57-59 | While fewer than 20 distinct non-empty colours are stored, an update loses none of them. |
| PresetColors.AddColorTwice | packages/easy-email-extensions/src/AttributePanel/components/provider/PresetColorsProvider/index.tsx:56 | Adding a colour that was just added changes nothing. |
| PresetColors.PresentColorNotMoved | packages/easy-email-extensions/src/AttributePanel/components/provider/PresetColorsProvider/index.tsx:56 | A colour already stored, even one stored twice, causes no update, so it is not moved to the end. |
| PresetColors.StoredColors | packages/easy-email-extensions/src/AttributePanel/components/provider/PresetColorsProvider/index.tsx:50-61 | The stored list changes if and only if the div exists, the colour is accepted and it is not stored yet. A changed list holds the invariant, ends with the colour, and is the last min(n, 20) entries of the deduplicated, filtered old list plus the colour. When the old list already held the invariant, the change is a plain append that drops the oldest entry only when 20 were stored. |
| PresetColors.AddCurrentColor | packages/easy-email-extensions/src/AttributePanel/components/provider/PresetColorsProvider/index.tsx:41-65 | One provider call keeps the provider invariant. The list changes if and only if a document exists or a div is already held, the colour is accepted, and it is not stored yet. The stored list is then the last min(n, 20) entries of the deduplicated, filtered old list plus the colour. On a valid list that means the old colours plus the new one, minus the oldest only when 20 were stored. A call that sees a document leaves a div held, and a call creates at most one div. |
| PresetColors.ReplayKeepsInvariant | packages/easy-email-extensions/src/AttributePanel/components/provider/PresetColorsProvider/index.tsx:33-65 | Any sequence of calls keeps the list bounded, without repeats or empty strings, and creates at most one scratch element. |
| PresetColors.InvariantFromInitial | packages/easy-email-extensions/src/AttributePanel/components/provider/PresetColorsProvider/index.tsx:33-36 | Starting from the default list, every reachable list holds the invariant and has at most 20 entries. |
| BlockTitle.GetBlockTitle | packages/easy-email-extensions/src/utils/getBlockTitle.ts:12-31 | A truthy title is returned. An untitled text or button block with the flag set gets the plain text of its content when an element is available. Without the flag, for other types, or with no document and no element, the result is the registry name. The holder is touched only on the content path. An element already held is kept, and a content-path call that sees a document leaves one held. |
| BlockTitle.ExplicitTitleWins | packages/easy-email-extensions/src/utils/getBlockTitle.ts:16 | A truthy title is returned verbatim for any type, content, flag, holder or environment. |
| BlockTitle.EmptyTitleFallsThrough | packages/easy-email-extensions/src/utils/getBlockTitle.ts:16 | A block whose title is "" gets exactly the result of an untitled block. |
| BlockTitle.ContentIgnoredOffContentPath | packages/easy-email-extensions/src/utils/getBlockTitle.ts:18-21 | Off the content path, the title does not depend on the content, the HTML-to-text conversion, the document or the holder. |
| BlockTitle.ServerRenderFallsBack | packages/easy-email-extensions/src/utils/getBlockTitle.ts:22-30 | With no document and no element yet, the title is the registry name and the holder stays empty. |
| BlockTitle.UnregisteredIsEmpty | packages/easy-email-extensions/src/utils/getBlockTitle.ts:29-30 | An untitled block of an unregistered type gets "" on every path that reaches the registry lookup. |
| BlockTitle.EmptyContentTextIsKept | packages/easy-email-extensions/src/utils/getBlockTitle.ts:22-26 | On the content path, empty plain text is returned as "" instead of falling back to the registry name. |
| BlockTitle.TitleRunCreatesAtMostOnce | packages/easy-email-extensions/src/utils/getBlockTitle.ts:4-10 | Calls that share the module-level holder create at most one scratch element, and create none if no call saw a document. An element held at the start is kept through every later call. |

## Left out

- The 500 ms lodash `debounce` and the React `useCallback`/`useMemo`/`useRefState` plumbing. These only affect timing and render identity. Each debounced invocation is modelled as one call of `AddColor`.
- `useLocalStorage` persistence and JSON encoding under `CURRENT_COLORS_KEY`. The stored list is the input and output of the update. A missing stored value, or entries that are not strings, are not modelled. For strings, `.filter(Boolean)` drops only `""`.
- The browser's CSS colour grammar and its HTML-to-text conversion. Both are abstract function parameters.
- `BlockManager` and the `BasicType` constants belong to easy-email-core, which is not part of this model. Types other than text and button are `Other(name)`, and the registry is a map of display names.
- `getBlockTitle` reads only `type`, `title` and `data.value.content` of `IBlockData`. The rest of the block data is not modelled, and the content is assumed to be a string.
- `LanguageProvider` (setting `window.t` after mount and a remount counter), the re-export barrels `next.tsx`, the demo pages and `next.config.js`. They contain no logic beyond rendering, global side effects and re-exports.

=== FILE: block_title.dfy ===
/**
 * `getBlockTitle`: the label the editor shows for a block. An explicit title
 * wins; text and button blocks otherwise show the plain text of their HTML
 * content, read through a lazily created scratch element; everything else
 * shows the name its block type is registered under, or nothing.
 */
module BlockTitle {
  import opened Wrappers
  import LazyElement

  /**
   * Block types. Only text and button blocks are told apart by the title
   * logic; every other type of the block library is `Other`, whose `name`
   * is never the text or button type identifier (those are `Text` and
   * `Button`), so `kind == Text` is the model of `type === BasicType.TEXT`.
   */
  datatype BlockType = Text | Button | Other(name: string)

  /** The part of a block's data the title logic reads: its type, optional title and HTML content. */
  datatype BlockData = BlockData(kind: BlockType, title: Option<string>, content: string)

  /**
   * What the title logic needs from outside: whether a browser document
   * exists, what `innerText` yields after `innerHTML` is set to some HTML,
   * and the block registry's display names.
   */
  datatype Environment = Environment(
    hasDocument: bool,
    innerText: string -> string,
    registry: map<BlockType, string>)

  /** The title, and the scratch-element holder after the call. */
  datatype TitleResult = TitleResult(title: string, scratch: LazyElement.Cell)

  /** A title is truthy when present and non-empty. */
  predicate Truthy(title: Option<string>) {
    title.Some? && title.value != ""
  }

  /** Text and button blocks may take their title from their content. */
  predicate ContentTitled(kind: BlockType) {
    kind == Text || kind == Button
  }

  /** The registered display name, with a missing entry or an empty name read as `""`. */
  function RegisteredName(registry: map<BlockType, string>, kind: BlockType): (name: string)
    ensures kind !in registry ==> name == ""
    ensures kind in registry ==> name == registry[kind]
  {
    if kind in registry then registry[kind] else ""
  }

  /**
   * The title of block `b`. `scratch` is the module-level holder of the
   * scratch element, consulted only on the content path.
   */
  function GetBlockTitle(b: BlockData, scratch: LazyElement.Cell, env: Environment,
                         isFromContent: bool := true): (r: TitleResult)
    ensures Truthy(b.title) ==> r.title == b.title.value
    ensures !Truthy(b.title) && isFromContent && ContentTitled(b.kind) &&
            (env.hasDocument || scratch.slot.Some?) ==>
              r.title == env.innerText(b.content)
    ensures !Truthy(b.title) && !(isFromContent && ContentTitled(b.kind)) ==>
              r.title == RegisteredName(env.registry, b.kind)
    ensures !Truthy(b.title) && !env.hasDocument && scratch.slot.None? ==>
              r.title == RegisteredName(env.registry, b.kind)
    ensures !(!Truthy(b.title) && isFromContent && ContentTitled(b.kind)) ==> r.scratch == scratch
    ensures LazyElement.Valid(scratch) ==> LazyElement.Valid(r.scratch)
    ensures scratch.slot.Some? ==> r.scratch == scratch
    ensures !Truthy(b.title) && isFromContent && ContentTitled(b.kind) && env.hasDocument ==>
              r.scratch.slot.Some?
  {
    if Truthy(b.title) then TitleResult(b.title.value, scratch)
    else if isFromContent && ContentTitled(b.kind) then
      var access := LazyElement.Get(scratch, env.hasDocument);
      if access.element.Some? then TitleResult(env.innerText(b.content), access.cell)
      else TitleResult(RegisteredName(env.registry, b.kind), access.cell)
    else TitleResult(RegisteredName(env.registry, b.kind), scratch)
  }

  /** A truthy title is returned verbatim whatever the type, content, flag or environment. */
  lemma ExplicitTitleWins(b: BlockData, b': BlockData, scratch: LazyElement.Cell, scratch': LazyElement.Cell,
                          env: Environment, env': Environment, isFromContent: bool, isFromContent': bool)
    requires Truthy(b.title) && b'.title == b.title
    ensures GetBlockTitle(b, scratch, env, isFromContent).title ==
            GetBlockTitle(b', scratch', env', isFromContent').title == b.title.value
  {
  }

  /** An empty title is not truthy: the block gets the same title as with none at all. */
  lemma EmptyTitleFallsThrough(b: BlockData, scratch: LazyElement.Cell, env: Environment, isFromContent: bool)
    requires b.title == Some("")
    ensures GetBlockTitle(b, scratch, env, isFromContent) ==
            GetBlockTitle(b.(title := None), scratch, env, isFromContent)
  {
  }

  /**
   * When the content is not consulted (the flag is off, or the type is not
   * text or button), neither the content nor the HTML-to-text conversion nor
   * the document affects the title.
   */
  lemma ContentIgnoredOffContentPath(b: BlockData, content': string, scratch: LazyElement.Cell,
                                     scratch': LazyElement.Cell, env: Environment,
                                     innerText': string -> string, hasDocument': bool, isFromContent: bool)
    requires !(isFromContent && ContentTitled(b.kind))
    ensures GetBlockTitle(b, scratch, env, isFromContent).title ==
            GetBlockTitle(b.(content := content'), scratch',
                          env.(innerText := innerText', hasDocument := hasDocument'), isFromContent).title
  {
  }

  /** Without a document and before any element exists, text and button blocks fall back to the registry name. */
  lemma ServerRenderFallsBack(b: BlockData, env: Environment, isFromContent: bool)
    requires !Truthy(b.title) && !env.hasDocument
    ensures GetBlockTitle(b, LazyElement.Empty, env, isFromContent) ==
            TitleResult(RegisteredName(env.registry, b.kind), LazyElement.Empty)
  {
  }

  /** An untitled block of an unregistered type gets `""` on every path that reaches the registry. */
  lemma UnregisteredIsEmpty(b: BlockData, scratch: LazyElement.Cell, env: Environment, isFromContent: bool)
    requires !Truthy(b.title) && b.kind !in env.registry
    requires !(isFromContent && ContentTitled(b.kind)) || (!env.hasDocument && scratch.slot.None?)
    ensures GetBlockTitle(b, scratch, env, isFromContent).title == ""
  {
  }

  /**
   * On the content path the text wins even when it is empty: an untitled
   * text or button block with blank content gets `""`, not its registry name.
   */
  lemma EmptyContentTextIsKept(b: BlockData, scratch: LazyElement.Cell, env: Environment)
    requires !Truthy(b.title) && ContentTitled(b.kind) && env.hasDocument
    requires env.innerText(b.content) == ""
    ensures GetBlockTitle(b, scratch, env).title == ""
  {
  }

  /** A sequence of calls, each with its own block and document flag, sharing one holder. */
  function TitleRun(scratch: LazyElement.Cell, blocks: seq<BlockData>, docs: seq<bool>,
                    innerText: string -> string, registry: map<BlockType, string>): (r: (LazyElement.Cell, seq<string>))
    requires |blocks| == |docs|
    ensures |r.1| == |blocks|
    decreases |blocks|
  {
    if |blocks| == 0 then (scratch, [])
    else
      var first := GetBlockTitle(blocks[0], scratch, Environment(docs[0], innerText, registry));
      var rest := TitleRun(first.scratch, blocks[1..], docs[1..], innerText, registry);
      (rest.0, [first.title] + rest.1)
  }

  /**
   * Across any sequence of calls sharing the module-level holder, at most one
   * scratch element is created, an element already held is kept for every
   * later call, and only a call that saw a document can have created it.
   */
  lemma {:induction false} TitleRunCreatesAtMostOnce(scratch: LazyElement.Cell, blocks: seq<BlockData>,
                                                     docs: seq<bool>, innerText: string -> string,
                                                     registry: map<BlockType, string>)
    requires |blocks| == |docs|
    requires LazyElement.Valid(scratch)
    ensures LazyElement.Valid(TitleRun(scratch, blocks, docs, innerText, registry).0)
    ensures TitleRun(scratch, blocks, docs, innerText, registry).0.created <= 1
    ensures scratch.slot.Some? ==> TitleRun(scratch, blocks, docs, innerText, registry).0 == scratch
    ensures LazyElement.NoDocumentBefore(docs, |docs|) ==>
              TitleRun(scratch, blocks, docs, innerText, registry).0 == scratch
    decreases |blocks|
  {
    if |blocks| > 0 {
      var first := GetBlockTitle(blocks[0], scratch, Environment(docs[0], innerText, registry));
      TitleRunCreatesAtMostOnce(first.scratch, blocks[1..], docs[1..], innerText, registry);
      if LazyElement.NoDocumentBefore(docs, |docs|) {
        assert !docs[0];
        assert LazyElement.NoDocumentBefore(docs[1..], |docs[1..]|) by {
          forall k | 0 <= k < |docs[1..]| ensures !docs[1..][k] {
            assert docs[1..][k] == docs[k + 1];
          }
        }
      }
    }
  }
}

=== FILE: color_list.dfy ===
/**
 * The three list steps of the preset-colour update, on their own:
 * `[...new Set(xs)]` (Dedupe), `.filter(Boolean)` on strings (DropEmpty) and
 * `.slice(-n)` (TakeLast), with the facts about order they preserve.
 */
module ColorList {

  /** No value occurs twice. */
  predicate NoDuplicates<T(==)>(s: seq<T>) {
    forall i, j :: 0 <= i < j < |s| ==> s[i] != s[j]
  }

  /** The position where `x` first occurs in `s`. */
  function FirstIndex<T(==)>(s: seq<T>, x: T): (i: nat)
    requires x in s
    ensures i < |s| && s[i] == x && x !in s[..i]
  {
    if s[0] == x then 0
    else
      var j := FirstIndex(s[1..], x);
      assert s[..j + 1] == [s[0]] + s[1..][..j];
      j + 1
  }

  /** Every element of `r` occurs in `s`, and `r` lists them in the order of their first occurrence in `s`. */
  predicate OrderedByFirstIndex<T(==)>(r: seq<T>, s: seq<T>) {
    && (forall i :: 0 <= i < |r| ==> r[i] in s)
    && (forall i, j :: 0 <= i < j < |r| ==> FirstIndex(s, r[i]) < FirstIndex(s, r[j]))
  }

  /**
   * `[...new Set(s)]`: a JavaScript `Set` keeps insertion order and ignores
   * repeated insertions, so each value is kept once, where it first occurs.
   */
  function Dedupe(s: seq<string>): (r: seq<string>)
    ensures NoDuplicates(r)
    ensures forall x :: x in r <==> x in s
    ensures |r| <= |s|
    decreases |s|
  {
    if |s| == 0 then []
    else
      var init := s[..|s| - 1];
      assert s == init + [s[|s| - 1]];
      var d := Dedupe(init);
      if s[|s| - 1] in d then d else d + [s[|s| - 1]]
  }

  /** `.filter(Boolean)` on a list of strings: only `""` is falsy, so the non-empty strings stay, in order. */
  function DropEmpty(s: seq<string>): (r: seq<string>)
    ensures forall x :: x in r <==> x in s && x != ""
    ensures |r| <= |s|
    decreases |s|
  {
    if |s| == 0 then []
    else
      var init := s[..|s| - 1];
      assert s == init + [s[|s| - 1]];
      var d := DropEmpty(init);
      if s[|s| - 1] == "" then d else d + [s[|s| - 1]]
  }

  /** `.slice(-n)` for a positive `n`: the last `n` elements, or all of them when there are fewer. */
  function TakeLast<T(==)>(s: seq<T>, n: nat): (r: seq<T>)
    requires n > 0
    ensures IsLastOf(r, s, n)
  {
    if |s| <= n then s else s[|s| - n..]
  }

  /** `r` is the suffix of `s` of length `min(|s|, n)`. */
  predicate IsLastOf<T(==)>(r: seq<T>, s: seq<T>, n: nat) {
    && |r| == (if |s| <= n then |s| else n)
    && r == s[|s| - |r|..]
  }

  /**
   * An imperative `[...new Set(s)]`: walk `s`, remember what the set already
   * holds, and append each value the set did not have.
   */
  method SpreadSet(s: seq<string>) returns (r: seq<string>)
    ensures r == Dedupe(s)
  {
    var seen: set<string> := {};
    r := [];
    var i := 0;
    while i < |s|
      invariant 0 <= i <= |s|
      invariant r == Dedupe(s[..i])
      invariant forall x :: x in seen <==> x in r
    {
      assert s[..i + 1][..i] == s[..i];
      if s[i] !in seen {
        seen := seen + {s[i]};
        r := r + [s[i]];
      }
      i := i + 1;
    }
    assert s[..|s|] == s;
  }

  /** Appending a value not yet present adds it at the end of the deduplicated list. */
  lemma DedupeAppendFresh(s: seq<string>, x: string)
    requires x !in s
    ensures Dedupe(s + [x]) == Dedupe(s) + [x]
  {
    assert (s + [x])[..|s|] == s;
  }

  /** Appending a non-empty string keeps it at the end of the filtered list. */
  lemma DropEmptyAppend(s: seq<string>, x: string)
    requires x != ""
    ensures DropEmpty(s + [x]) == DropEmpty(s) + [x]
  {
    assert (s + [x])[..|s|] == s;
  }

  /** Filtering distributes over concatenation, so it keeps repeats and order everywhere. */
  lemma {:induction false} DropEmptyConcat(a: seq<string>, b: seq<string>)
    ensures DropEmpty(a + b) == DropEmpty(a) + DropEmpty(b)
    decreases |b|
  {
    if |b| == 0 {
      assert a + b == a;
    } else {
      var init := b[..|b| - 1];
      DropEmptyConcat(a, init);
      assert (a + b)[..|a + b| - 1] == a + init;
      assert b[..|b| - 1] == init;
    }
  }

  /** The filter removes every `""` and keeps every other string as often as it occurs. */
  lemma {:induction false} DropEmptyCounts(s: seq<string>)
    ensures multiset(DropEmpty(s)) == multiset(s)["" := 0]
    decreases |s|
  {
    if |s| > 0 {
      var init := s[..|s| - 1];
      DropEmptyCounts(init);
      assert s == init + [s[|s| - 1]];
      assert multiset(s) == multiset(init) + multiset{s[|s| - 1]};
    }
  }

  /** A list with no empty strings passes the filter unchanged. */
  lemma {:induction false} DropEmptyIdentity(s: seq<string>)
    requires forall i :: 0 <= i < |s| ==> s[i] != ""
    ensures DropEmpty(s) == s
    decreases |s|
  {
    if |s| > 0 {
      DropEmptyIdentity(s[..|s| - 1]);
      assert s == s[..|s| - 1] + [s[|s| - 1]];
    }
  }

  /** A list with no duplicates is its own deduplication. */
  lemma {:induction false} DedupeIdentity(s: seq<string>)
    requires NoDuplicates(s)
    ensures Dedupe(s) == s
    decreases |s|
  {
    if |s| > 0 {
      var init := s[..|s| - 1];
      DedupeIdentity(init);
      assert s[|s| - 1] !in init;
      assert s == init + [s[|s| - 1]];
    }
  }

  /** The first occurrence of a value of `s` is the same in any extension of `s`. */
  lemma FirstIndexPrefix<T>(s: seq<T>, t: seq<T>, x: T)
    requires x in s
    ensures FirstIndex(s + t, x) == FirstIndex(s, x)
  {
    var i := FirstIndex(s + t, x);
    var j := FirstIndex(s, x);
    assert (s + t)[j] == x;
  }

  /**
   * The deduplicated list is ordered by first occurrence: `Dedupe(s)` is the
   * list of distinct values of `s` in the order they first appear.
   */
  lemma {:induction false} DedupeKeepsFirstOccurrenceOrder(s: seq<string>)
    ensures OrderedByFirstIndex(Dedupe(s), s)
    decreases |s|
  {
    if |s| > 0 {
      var init := s[..|s| - 1];
      var x := s[|s| - 1];
      assert s == init + [x];
      DedupeKeepsFirstOccurrenceOrder(init);
      var d := Dedupe(init);
      forall y | y in init ensures FirstIndex(s, y) == FirstIndex(init, y) {
        FirstIndexPrefix(init, [x], y);
      }
      if x !in d {
        assert x !in init;
        assert x !in s[..|init|];
        assert FirstIndex(s, x) == |init|;
        var r := Dedupe(s);
        assert r == d + [x];
        forall i, j | 0 <= i < j < |r| ensures FirstIndex(s, r[i]) < FirstIndex(s, r[j]) {
          if j == |d| {
            assert r[i] == d[i] && d[i] in init;
          } else {
            assert r[i] == d[i] && r[j] == d[j];
          }
        }
      }
    }
  }

  /** Filtering keeps whatever first-occurrence order a list had. */
  lemma {:induction false} DropEmptyKeepsOrder(d: seq<string>, s: seq<string>)
    requires OrderedByFirstIndex(d, s)
    ensures OrderedByFirstIndex(DropEmpty(d), s)
    decreases |d|
  {
    if |d| > 0 {
      var init := d[..|d| - 1];
      var x := d[|d| - 1];
      assert d == init + [x];
      assert OrderedByFirstIndex(init, s);
      DropEmptyKeepsOrder(init, s);
      if x != "" {
        var f := DropEmpty(init);
        var r := DropEmpty(d);
        assert r == f + [x];
        forall i, j | 0 <= i < j < |r| ensures FirstIndex(s, r[i]) < FirstIndex(s, r[j]) {
          if j == |f| {
            assert r[i] in init;
            var m :| 0 <= m < |init| && init[m] == r[i];
            assert d[m] == r[i] && d[|d| - 1] == x;
          } else {
            assert r[i] == f[i] && r[j] == f[j];
          }
        }
      }
    }
  }

  /** Filtering never introduces a repeat. */
  lemma {:induction false} DropEmptyKeepsNoDuplicates(d: seq<string>)
    requires NoDuplicates(d)
    ensures NoDuplicates(DropEmpty(d))
    decreases |d|
  {
    if |d| > 0 {
      var init := d[..|d| - 1];
      var x := d[|d| - 1];
      assert d == init + [x];
      DropEmptyKeepsNoDuplicates(init);
      assert x !in init;
    }
  }

  /** Keeping a suffix keeps whatever first-occurrence order a list had. */
  lemma SuffixKeepsOrder<T>(d: seq<T>, k: nat, s: seq<T>)
    requires k <= |d|
    requires OrderedByFirstIndex(d, s)
    ensures OrderedByFirstIndex(d[k..], s)
  {
    forall i, j | 0 <= i < j < |d[k..]|
      ensures FirstIndex(s, d[k..][i]) < FirstIndex(s, d[k..][j])
    {
      assert d[k..][i] == d[k + i] && d[k..][j] == d[k + j];
    }
  }
}

=== FILE: lazy_element.dfy ===
/**
 * The server-rendering-safe lazy accessor shared by `getColorDiv` in the
 * preset-colours provider and `getTempElement` in the block-title utility:
 * a nullable holder that creates a scratch `div` on the first call made while
 * a browser document exists, and hands back the same element from then on.
 */
module LazyElement {
  import opened Wrappers

  /** A DOM node made by `document.createElement('div')`, identified by creation order. */
  datatype Element = Element(serial: nat)

  /**
   * The holder (`useRef(null)` or a module-level `let`) together with the
   * number of elements it has created so far.
   */
  datatype Cell = Cell(slot: Option<Element>, created: nat)

  /** The holder before any call: nothing stored, nothing created. */
  const Empty: Cell := Cell(None, 0)

  /** What the holder looks like once only this accessor has touched it. */
  predicate Valid(c: Cell) {
    match c.slot
    case None => c.created == 0
    case Some(e) => c.created == 1 && e.serial == 0
  }

  /** The state after one call and the value the call returned (`None` is `null`). */
  datatype Access = Access(cell: Cell, element: Option<Element>)

  /**
   * One call of the accessor. The document check is made on every call, so a
   * holder left empty during server rendering is filled on the first call in
   * the browser; an element already held is returned as it is.
   */
  function Get(c: Cell, hasDocument: bool): (r: Access)
    ensures r.element == r.cell.slot
    ensures c.slot.Some? ==> r.cell == c
    ensures r.element.None? <==> c.slot.None? && !hasDocument
    ensures r.cell.created <= c.created + 1
    ensures r.cell.created == c.created + 1 <==> c.slot.None? && hasDocument
    ensures Valid(c) ==> Valid(r.cell)
  {
    if c.slot.None? && hasDocument then
      var e := Element(c.created);
      Access(Cell(Some(e), c.created + 1), Some(e))
    else
      Access(c, c.slot)
  }

  /** A run of calls; `docs[i]` says whether a document existed at call `i`. */
  function Run(c: Cell, docs: seq<bool>): (r: (Cell, seq<Option<Element>>))
    ensures |r.1| == |docs|
    decreases |docs|
  {
    if |docs| == 0 then (c, [])
    else
      var a := Get(c, docs[0]);
      var rest := Run(a.cell, docs[1..]);
      (rest.0, [a.element] + rest.1)
  }

  /** No document was seen in the first `n` calls. */
  predicate NoDocumentBefore(docs: seq<bool>, n: nat)
    requires n <= |docs|
  {
    forall k :: 0 <= k < n ==> !docs[k]
  }

  /**
   * Over any run that starts from a valid holder: at most one element is
   * ever created, every non-null answer is the element finally held, and
   * from an empty holder the answer is null exactly until the first call
   * that sees a document.
   */
  lemma {:induction false} RunCreatesAtMostOnce(c: Cell, docs: seq<bool>)
    requires Valid(c)
    ensures Valid(Run(c, docs).0)
    ensures Run(c, docs).0.created <= 1
    ensures forall i :: 0 <= i < |docs| && Run(c, docs).1[i].Some? ==>
              Run(c, docs).1[i] == Run(c, docs).0.slot
    ensures c.slot.Some? ==> Run(c, docs).0 == c
    ensures c.slot.Some? ==> forall i :: 0 <= i < |docs| ==> Run(c, docs).1[i] == c.slot
    ensures c.slot.None? ==>
              forall i :: 0 <= i < |docs| ==>
                (Run(c, docs).1[i].None? <==> NoDocumentBefore(docs, i + 1))
    decreases |docs|
  {
    if |docs| > 0 {
      var a := Get(c, docs[0]);
      RunCreatesAtMostOnce(a.cell, docs[1..]);
      var rest := Run(a.cell, docs[1..]);
      var r := Run(c, docs);
      assert r.1 == [a.element] + rest.1;
      if c.slot.None? {
        forall i | 0 <= i < |docs|
          ensures r.1[i].None? <==> NoDocumentBefore(docs, i + 1)
        {
          if i == 0 {
            assert r.1[0] == a.element;
          } else {
            assert r.1[i] == rest.1[i - 1];
            if docs[0] {
              assert !NoDocumentBefore(docs, i + 1);
            } else {
              assert a.cell == c;
              assert NoDocumentBefore(docs, i + 1) <==> NoDocumentBefore(docs[1..], i) by {
                if NoDocumentBefore(docs[1..], i) {
                  forall k | 0 <= k < i + 1 ensures !docs[k] {
                    if k > 0 { assert docs[k] == docs[1..][k - 1]; }
                  }
                }
              }
            }
          }
        }
      }
    }
  }

  /** From the empty holder, a run never creates more than one element. */
  lemma CreatedAtMostOnceFromEmpty(docs: seq<bool>)
    ensures Run(Empty, docs).0.created <= 1
    ensures forall i, j ::
              (0 <= i < |docs| && 0 <= j < |docs| &&
               Run(Empty, docs).1[i].Some? && Run(Empty, docs).1[j].Some?) ==>
              Run(Empty, docs).1[i] == Run(Empty, docs).1[j]
  {
    RunCreatesAtMostOnce(Empty, docs);
  }

  /** Without a document at any call, every answer is null and nothing is created. */
  lemma ServerRunStaysNull(docs: seq<bool>)
    requires NoDocumentBefore(docs, |docs|)
    ensures Run(Empty, docs).0 == Empty
    ensures forall i :: 0 <= i < |docs| ==> Run(Empty, docs).1[i].None?
  {
    RunCreatesAtMostOnce(Empty, docs);
    var r := Run(Empty, docs);
    forall i | 0 <= i < |docs| ensures r.1[i].None? {
      assert NoDocumentBefore(docs, i + 1);
    }
  }
}

=== FILE: preset_colors.dfy ===
/**
 * The recently-used colour list of `PresetColorsProvider`: a stored list of
 * colour strings that `addCurrentColor` extends with a new colour the browser
 * accepts, keeping it free of duplicates and empty strings and at most
 * `MaxRecordSize` long by dropping the oldest entries.
 */
module PresetColors {
  import opened Wrappers
  import opened ColorList
  import LazyElement

  /** The list used when local storage holds none yet. */
  const DefaultPresetColor: seq<string> :=
    ["#000000", "#FFFFFF", "#9b9b9b", "#d0021b", "#4a90e2", "#7ed321", "#bd10e0", "#f8e71c"]

  /** The most colours the list keeps. */
  const MaxRecordSize: nat := 20

  /** The list invariant: bounded, no repeats, no empty strings. */
  predicate ValidList(s: seq<string>) {
    && |s| <= MaxRecordSize
    && NoDuplicates(s)
    && (forall i :: 0 <= i < |s| ==> s[i] != "")
  }

  /**
   * The browser's CSS colour parser: `Some(v)` when it accepts the value,
   * `v` being what `style.color` then reads back; `None` when it rejects it.
   */
  type ColorParser = string -> Option<string>

  /** The browser accepts `c` as a colour: it parses, and reads back non-empty. */
  predicate Accepted(c: string, parse: ColorParser) {
    c != "" && parse(c).Some? && parse(c).value != ""
  }

  /**
   * Assigning `value` to `element.style.color`: the empty string clears the
   * declaration, a value the parser rejects leaves the declaration as it was,
   * and an accepted value replaces it.
   */
  function AssignStyleColor(styleColor: string, value: string, parse: ColorParser): (shown: string)
    ensures value == "" ==> shown == ""
    ensures value != "" && parse(value).None? ==> shown == styleColor
    ensures value != "" && parse(value).Some? ==> shown == parse(value).value
  {
    if value == "" then ""
    else
      match parse(value)
      case Some(v) => v
      case None => styleColor
  }

  /**
   * The validity probe of `addCurrentColor`: clear the scratch element's
   * colour, then assign the candidate. Because of the clearing, what is read
   * back is non-empty exactly when the browser accepts the candidate, whatever
   * colour the element showed before.
   */
  function ProbeColor(styleColor: string, c: string, parse: ColorParser): (shown: string)
    ensures shown != "" <==> Accepted(c, parse)
    ensures shown != "" ==> shown == parse(c).value
  {
    AssignStyleColor(AssignStyleColor(styleColor, "", parse), c, parse)
  }

  /**
   * One debounced invocation of `addCurrentColor`, given the stored list, the
   * candidate colour, what `getColorDiv` returned and the colour that element
   * showed before. `None` means the stored list is left as it is.
   */
  function AddColor(current: seq<string>, c: string, div: Option<LazyElement.Element>,
                    styleColor: string, parse: ColorParser): (r: Option<seq<string>>)
    ensures r.Some? <==> div.Some? && Accepted(c, parse) && c !in current
    ensures r.Some? ==> ValidList(r.value)
    ensures r.Some? ==> |r.value| > 0 && r.value[|r.value| - 1] == c
    ensures r.Some? ==> IsLastOf(r.value, DropEmpty(Dedupe(current + [c])), MaxRecordSize)
    ensures r.Some? ==> OrderedByFirstIndex(r.value[..|r.value| - 1], current)
  {
    if div.None? then None
    else if ProbeColor(styleColor, c, parse) == "" then None
    else if c in current then None
    else
      UpdatedList(current, c);
      Some(TakeLast(DropEmpty(Dedupe(current + [c])), MaxRecordSize))
  }

  /** The list an update stores, for a new non-empty colour `c`, satisfies the invariant and ends in `c`. */
  lemma UpdatedList(current: seq<string>, c: string)
    requires c != "" && c !in current
    ensures var kept := TakeLast(DropEmpty(Dedupe(current + [c])), MaxRecordSize);
      && ValidList(kept)
      && |kept| > 0 && kept[|kept| - 1] == c
      && OrderedByFirstIndex(kept[..|kept| - 1], current)
  {
    var full := DropEmpty(Dedupe(current + [c]));
    var kept := TakeLast(full, MaxRecordSize);
    var f := DropEmpty(Dedupe(current));
    var k := |full| - |kept|;
    CleanedAppend(current, c);
    assert full == f + [c];
    assert kept == full[k..];
    SuffixOfCleaned(f, c, k, current);
    assert kept[..|kept| - 1] == f[k..];
  }

  /** Before truncation: the cleaned old list, then `c`, with no repeats and no empty strings. */
  lemma CleanedAppend(current: seq<string>, c: string)
    requires c != "" && c !in current
    ensures DropEmpty(Dedupe(current + [c])) == DropEmpty(Dedupe(current)) + [c]
    ensures NoDuplicates(DropEmpty(Dedupe(current)))
    ensures c !in DropEmpty(Dedupe(current))
    ensures OrderedByFirstIndex(DropEmpty(Dedupe(current)), current)
  {
    DedupeAppendFresh(current, c);
    DropEmptyAppend(Dedupe(current), c);
    DedupeKeepsFirstOccurrenceOrder(current);
    DropEmptyKeepsOrder(Dedupe(current), current);
    DropEmptyKeepsNoDuplicates(Dedupe(current));
  }

  /** Any non-empty suffix of `f + [c]` keeps the list invariant's shape and the order of `f`. */
  lemma SuffixOfCleaned(f: seq<string>, c: string, k: nat, current: seq<string>)
    requires NoDuplicates(f) && c !in f && c != ""
    requires forall i :: 0 <= i < |f| ==> f[i] != ""
    requires OrderedByFirstIndex(f, current)
    requires k <= |f|
    ensures (f + [c])[k..] == f[k..] + [c]
    ensures NoDuplicates(f[k..] + [c])
    ensures forall i :: 0 <= i < |f[k..] + [c]| ==> (f[k..] + [c])[i] != ""
    ensures OrderedByFirstIndex(f[k..], current)
  {
    SuffixKeepsOrder(f, k, current);
    var r := f[k..] + [c];
    forall i, j | 0 <= i < j < |r| ensures r[i] != r[j] {
      assert r[i] == f[k + i];
      if j < |r| - 1 {
        assert r[j] == f[k + j];
      }
    }
  }

  /** The default list satisfies the list invariant. */
  lemma DefaultIsValid()
    ensures |DefaultPresetColor| == 8
    ensures ValidList(DefaultPresetColor)
  {
  }

  /**
   * On a list that already satisfies the invariant, an update appends `c`,
   * dropping the oldest colour only when the list was full.
   */
  lemma AddColorOnValidList(current: seq<string>, c: string, div: Option<LazyElement.Element>,
                            styleColor: string, parse: ColorParser)
    requires ValidList(current)
    requires AddColor(current, c, div, styleColor, parse).Some?
    ensures |current| < MaxRecordSize ==> AddColor(current, c, div, styleColor, parse).value == current + [c]
    ensures |current| == MaxRecordSize ==> AddColor(current, c, div, styleColor, parse).value == current[1..] + [c]
  {
    DedupeIdentity(current);
    DropEmptyIdentity(current);
    CleanedAppend(current, c);
  }

  /** While fewer than `MaxRecordSize` distinct colours are stored, an update loses none of them. */
  lemma AddColorKeepsAllWhenRoom(current: seq<string>, c: string, div: Option<LazyElement.Element>,
                                 styleColor: string, parse: ColorParser)
    requires AddColor(current, c, div, styleColor, parse).Some?
    requires |DropEmpty(Dedupe(current))| < MaxRecordSize
    ensures forall x :: x in current && x != "" ==> x in AddColor(current, c, div, styleColor, parse).value
  {
    CleanedAppend(current, c);
  }

  /** Adding a colour that was just added changes nothing. */
  lemma AddColorTwice(current: seq<string>, c: string, div: Option<LazyElement.Element>,
                      styleColor: string, parse: ColorParser, styleColor2: string)
    requires AddColor(current, c, div, styleColor, parse).Some?
    ensures AddColor(AddColor(current, c, div, styleColor, parse).value, c, div, styleColor2, parse).None?
  {
  }

  /**
   * A colour already stored is not moved to the most recent position: the
   * update is skipped, so the list keeps its order.
   */
  lemma PresentColorNotMoved(current: seq<string>, c: string, div: Option<LazyElement.Element>,
                             styleColor: string, parse: ColorParser)
    requires c in current
    ensures AddColor(current, c, div, styleColor, parse).None?
  {
  }

  /** The provider's state: the stored list, the lazily created scratch element and the colour it shows. */
  datatype Provider = Provider(colors: seq<string>, colorDiv: LazyElement.Cell, divColor: string)

  /** The state on first mount with empty local storage. */
  const Initial: Provider := Provider(DefaultPresetColor, LazyElement.Empty, "")

  /** The provider state is consistent: a valid list and a holder only `getColorDiv` has touched. */
  predicate ValidProvider(p: Provider) {
    ValidList(p.colors) && LazyElement.Valid(p.colorDiv)
  }

  /**
   * The list stored after one call of `addCurrentColor`: the updated list, or
   * the current one when the update is skipped.
   */
  function StoredColors(current: seq<string>, c: string, div: Option<LazyElement.Element>,
                        styleColor: string, parse: ColorParser): (colors: seq<string>)
    ensures colors != current <==> div.Some? && Accepted(c, parse) && c !in current
    ensures colors != current ==> ValidList(colors)
    ensures colors != current ==> |colors| > 0 && colors[|colors| - 1] == c
    ensures colors != current ==> IsLastOf(colors, DropEmpty(Dedupe(current + [c])), MaxRecordSize)
    ensures ValidList(current) && colors != current ==>
              colors == (if |current| < MaxRecordSize then current else current[1..]) + [c]
  {
    var r := AddColor(current, c, div, styleColor, parse);
    if r.None? then current
    else
      assert r.value != current by {
        assert r.value[|r.value| - 1] == c;
        if |r.value| == |current| {
          assert current[|current| - 1] in current;
        }
      }
      if ValidList(current) then
        AddColorOnValidList(current, c, div, styleColor, parse);
        r.value
      else
        r.value
  }

  /**
   * One debounced call of `addCurrentColor` on the provider: fetch the scratch
   * element lazily, probe the colour on it, and store the new list if any.
   */
  function AddCurrentColor(p: Provider, c: string, hasDocument: bool, parse: ColorParser): (q: Provider)
    ensures ValidProvider(p) ==> ValidProvider(q)
    ensures q.colors != p.colors ==> ValidList(q.colors)
    ensures q.colors != p.colors <==>
              (hasDocument || p.colorDiv.slot.Some?) && Accepted(c, parse) && c !in p.colors
    ensures q.colors != p.colors ==> |q.colors| > 0 && q.colors[|q.colors| - 1] == c
    ensures q.colors != p.colors ==> IsLastOf(q.colors, DropEmpty(Dedupe(p.colors + [c])), MaxRecordSize)
    ensures ValidList(p.colors) && q.colors != p.colors ==>
              q.colors == (if |p.colors| < MaxRecordSize then p.colors else p.colors[1..]) + [c]
    ensures hasDocument ==> q.colorDiv.slot.Some?
    ensures q.colorDiv.created <= p.colorDiv.created + 1
  {
    var access := LazyElement.Get(p.colorDiv, hasDocument);
    var shown := if access.element.Some? then ProbeColor(p.divColor, c, parse) else p.divColor;
    Provider(StoredColors(p.colors, c, access.element, p.divColor, parse), access.cell, shown)
  }

  /** One call: the colour passed and whether a document existed at that moment. */
  datatype Call = Call(color: string, hasDocument: bool)

  /** A sequence of debounced calls, applied in order. */
  function Replay(p: Provider, calls: seq<Call>, parse: ColorParser): Provider
    decreases |calls|
  {
    if |calls| == 0 then p
    else Replay(AddCurrentColor(p, calls[0].color, calls[0].hasDocument, parse), calls[1..], parse)
  }

  /**
   * From any valid state, however many colours are added, the stored list
   * stays within the bound, without repeats or empty strings, and at most one
   * scratch element is created.
   */
  lemma {:induction false} ReplayKeepsInvariant(p: Provider, calls: seq<Call>, parse: ColorParser)
    requires ValidProvider(p)
    ensures ValidProvider(Replay(p, calls, parse))
    ensures Replay(p, calls, parse).colorDiv.created <= 1
    decreases |calls|
  {
    if |calls| > 0 {
      ReplayKeepsInvariant(AddCurrentColor(p, calls[0].color, calls[0].hasDocument, parse), calls[1..], parse);
    }
  }

  /** The invariant holds in every state reachable from the initial one. */
  lemma InvariantFromInitial(calls: seq<Call>, parse: ColorParser)
    ensures ValidProvider(Replay(Initial, calls, parse))
    ensures |Replay(Initial, calls, parse).colors| <= MaxRecordSize
  {
    DefaultIsValid();
    ReplayKeepsInvariant(Initial, calls, parse);
  }
}

=== FILE: wrappers.dfy ===
/** The nullable values of the browser code (`null`, `undefined`) as an option type. */
module Wrappers {

  /** `None` stands for `null`/`undefined`, `Some(v)` for a present value. */
  datatype Option<+T> = None | Some(value: T)
}
